=== FILE: README.md ===
# Kvell payment-gateway client — a Dafny model

This project models the core of the Kvell Ruby client, a small library for a
payout gateway. It covers five pieces:

- **Configuration holder** (`Configurable`). It keeps seven optional settings:
  endpoint, API key, two secrets, logger, open timeout and read timeout.
  `set_defaults` fills in missing timeouts and the logger with Ruby's `||=`.
  `configure` runs the caller's block and then the defaults. `options` takes an
  ordered snapshot, and `same_options?` compares two snapshots.
- **Client option merge and request shaping** (`HttpClient`). A new client
  takes each setting from the explicit options when that value is truthy, and
  from the module otherwise. Each request is described as a value: verb, base
  URL, path, timeouts, headers, query and JSON body. The status check runs
  before any JSON is parsed. `fetch_banks` maps the parsed array to bank
  records one-to-one and in order. `check_payment_possibility` returns the
  parsed body unchanged.
- **Log redaction filter** (`LogFilter`). This is the logger's
  `gsub(/(X-Api-Key: )([^&]+)/, '\1[FILTERED]')`.
- **Request models** (`Requests`). `Pay` and `CheckPaymentPossibility` are
  built only when every required property is non-nil.
- **Client cache** (`Kvell`). `Kvell.client` keeps one cached client. It is a
  state machine over the module configuration and the cached client, and each
  client object carries an identity token, its current settings and the
  connection it memoized when it was built.

Supporting modules: `Wrappers` (Option/Result), `RubyValues` (Ruby objects and
truthiness), `Json` (parsed JSON values) and `Hashes` (Ruby's insertion-ordered
`Hash`, with `[]=` and `merge!`).

## Behaviour notes

- `raise_error` raises only for statuses 400–599: 4xx as `ClientError` and
  5xx as `ServerError`. Every other status reaches `JSON.parse`.
- The default timeouts are the integers `5` (read) and `2` (open).
- A client built without `configure` gets no defaults. `Client.new` copies the
  module's settings, `nil` ones included.
- The client implements two operations, `fetch_banks` and
  `check_payment_possibility`. It computes no request signature.
- A client includes `Configurable`, so its settings can be written after it
  is built. Its Faraday connection is memoized when it is built: the base
  URL, timeouts and logger stay as they were then, while `api_key` is read
  again on every call. After such a write, the next `Kvell.client` builds a
  new client, because the settings no longer equal the module's.

## Model

| member | source | states |
|---|---|---|
| `Configurable.Set` | lib/kvell/configurable.rb:18 | An attribute writer sets its own setting and leaves the other six unchanged. |
| `Configurable.SetDefaults` | lib/kvell/configurable.rb:25-29 | read_timeout becomes 5, open_timeout 2 and logger a fresh logger, each only when it is nil or false. Any other value, 0 and "" included, is kept. The four other settings never change, and afterwards all three defaulted settings are present. |
| `Configurable.LemmaSetDefaultsFixpoint` | lib/kvell/configurable.rb:25-29 | set_defaults leaves a configuration unchanged exactly when its three defaulted settings are already present. |
| `Configurable.LemmaSetDefaultsIdempotent` | lib/kvell/configurable.rb:25-29 | Applying set_defaults twice gives the same result as applying it once, whatever logger the second call would create. |
| `Configurable.LemmaAssignLastWriteWins` | lib/kvell/configurable.rb:20-21 | After the configure block runs, each setting holds the last value the block wrote to it, or its old value if the block never wrote it. |
| `Configurable.LemmaConfigureKeepsExplicitValues` | lib/kvell/configurable.rb:20-23 | Under configure, a setting the block last set to a truthy value survives the defaulting step. Settings without a default hold exactly what the block wrote, and the result always has all defaults filled. |
| `Configurable.LemmaConfigureFromWrites` | lib/kvell/configurable.rb:20-23 | configure runs the whole block before set_defaults. A setting without a default, or one the block left truthy, ends with the block's last write to it (or its old value). A defaulted setting the block left nil or false ends with its default: 5, 2 or a fresh logger. |
| `Configurable.Options` | lib/kvell/configurable.rb:31-33 | The snapshot's keys are exactly CONFIGURATION_OPTIONS in order, and each key maps to that setting's current value. |
| `Configurable.LemmaOptionsGet` | lib/kvell/configurable.rb:31-33 | Looking up any setting in the snapshot gives that setting's current value. |
| `Configurable.LemmaOptionsInjective` | lib/kvell/configurable.rb:31-33 | Two snapshots are equal exactly when the two configurations are equal. |
| `Configurable.LemmaSameOptionsIffEqual` | lib/kvell/configurable.rb:35-37 | same_options? against another object's snapshot holds exactly when all seven settings agree (both directions). |
| `HttpClient.InitializeFrom` | lib/kvell/client.rb:12-15 | After the initialize loop over a list of attributes, each listed setting is the explicit option when truthy and the module-level value otherwise, and each unlisted one keeps its prior value. |
| `HttpClient.NewClientConfig` | lib/kvell/client.rb:11-15 | Each client setting is the explicit option when that value is truthy, and the module-level value otherwise. |
| `HttpClient.LemmaNewClientFromModuleOptions` | lib/kvell.rb:17 | A client built from the module's own options snapshot has exactly the module's settings. |
| `HttpClient.LemmaNewClientWithoutOptions` | lib/kvell/client.rb:11-15 | Client.new with no options inherits every module-level setting, nil ones included. |
| `HttpClient.LemmaConnectReadsFourSettings` | lib/kvell/client.rb:41-55 | The memoized connection is built from the endpoint, both timeouts and the logger. Two configurations give the same connection exactly when they agree on those four settings, so the API key and the secrets never reach it. |
| `HttpClient.HttpGet` | lib/kvell/client.rb:80-85 | A GET of the resource on the connection's base URL with the connection's timeouts. The query is the given params and there is no body. A per-call header overrides the connection header of the same name, and all other connection headers are kept. Each header name appears once, and the connection headers come first, in their order. |
| `HttpClient.HttpPost` | lib/kvell/client.rb:72-77 | A POST of the resource on the connection's base URL and timeouts. Its body is the params as a JSON object and it has no query. The connection headers and the per-call headers are merged as for GET. |
| `HttpClient.ParseBody` | lib/kvell/client.rb:57-59 | A 4xx or 5xx status fails with that status whatever the body holds, so the body is never parsed. Otherwise the result is the parsed body, or a parser error when the body is not JSON. |
| `HttpClient.FetchBanksRequest` | lib/kvell/client.rb:21-22 | fetch_banks sends a GET to /v1/collections/banks with no body, on the memoized connection's base URL and timeouts. The headers the client sets are Content-Type: application/json and X-Api-Key, in that order. X-Api-Key is the api_key as it is at the time of the call. |
| `HttpClient.DecodeBanks` | lib/kvell/client.rb:24-26 | Decoding succeeds exactly when every element is a JSON object. It then yields one bank per element, in the same order, each read from that element. |
| `HttpClient.FetchBanks` | lib/kvell/client.rb:21-27 | A 4xx status fails with ClientError and a 5xx status with ServerError, each carrying the status, and an unparsable body otherwise fails with a parser error. The call succeeds exactly when the status is not an error and the body is an array of objects, or an empty object. On success there is one record per array element, in order, and any other parsed body fails with a decode error. |
| `HttpClient.LemmaFetchBanksRoundTrip` | lib/kvell/client.rb:24-26 | A 2xx answer holding the gateway's JSON objects for a list of banks decodes to exactly that list. |
| `HttpClient.LemmaFetchBanksAlfaBank` | spec/kvell/client_spec.rb:28-35 | The one-bank answer (bank_id 100000000008, bank_bic 044525593, Альфа-Банк) decodes to that single bank record. |
| `HttpClient.LemmaUnprocessableEntityRaises` | spec/kvell/client_spec.rb:114-126 | A 422 answer makes both operations fail with ClientError(422), never with a decoded value. |
| `HttpClient.CheckPaymentPossibilityRequest` | lib/kvell/client.rb:33-34 | check_payment_possibility POSTs the params as the JSON body on the memoized connection. The only per-call header is X-Api-Key, set to the current api_key, so the headers the client sets are Content-Type and X-Api-Key. |
| `HttpClient.CheckPaymentPossibility` | lib/kvell/client.rb:33-37 | A 4xx status fails with ClientError and a 5xx status with ServerError, each carrying the status. Otherwise an unparsable body fails with a parser error, and a parsed body is the result, unchanged. |
| `Hashes.LemmaMergeGet` | lib/kvell/client.rb:75 | After merge!, a key of the merged-in hash reads as in that hash, and any other key reads as before. |
| `LogFilter.RunLength` | lib/kvell/client.rb:64 | The greedy `[^&]+` consumes every character up to the first `&` or the end of the text. |
| `LogFilter.LemmaRedactKeyValue` | lib/kvell/client.rb:64 | `X-Api-Key: v`, with v non-empty and free of `&`, becomes `X-Api-Key: [FILTERED]`. Filtering then resumes at the `&` or end of text that ended v. |
| `LogFilter.LemmaRedactNoMatchUnchanged` | lib/kvell/client.rb:64 | Text in which no `X-Api-Key: ` is followed by a non-`&` character passes through unchanged. |
| `LogFilter.LemmaRedactIdempotent` | lib/kvell/client.rb:64 | Filtering already-filtered text changes nothing. |
| `LogFilter.LemmaRedactMasksEveryKey` | lib/kvell/client.rb:64 | In filtered text, wherever the pattern still matches, the header value is exactly `[FILTERED]`, followed by `&` or the end of the text. |
| `LogFilter.LemmaRedactToEnd` | lib/kvell/client.rb:64 | A key value with no `&`, newlines included, is masked to the end of the text, so header lines logged after the key are masked with it. |
| `Requests.FirstMissing` | lib/kvell/client/models/requests/base.rb:7 | There is no missing property exactly when every required property is non-nil. Otherwise the result names the first required property, in declaration order, whose value is nil. |
| `Requests.Build` | lib/kvell/client/models/requests/base.rb:7 | Construction succeeds exactly when every required property is non-nil, and then keeps the values. Otherwise it fails naming the first required property, in declaration order, whose value is nil. |
| `Requests.NewPay` | lib/kvell/client/models/requests/pay.rb:8-14 | Pay is built exactly when amount, phone, bank_id, fio, transaction and description are all non-nil, whatever customer is. A built Pay keeps exactly the assigned values. A failure names the first nil one of amount, phone, bank_id, fio, transaction and description, in that order. |
| `Requests.LemmaPayCustomerIsOptional` | lib/kvell/client/models/requests/pay.rb:14 | With the six required properties set and customer absent, Pay is built with customer nil. |
| `Requests.NewCheckPaymentPossibility` | lib/kvell/client/models/requests/check_payment_possibility.rb:8-12 | The request is built exactly when all five properties are non-nil (there are no optional ones), and it keeps the assigned values. A failure names the first nil one of amount, phone, bank_id, fio and fio_check, in that order. |
| `Requests.LemmaCheckPaymentPossibilityAcceptsFalse` | lib/kvell/client/models/requests/check_payment_possibility.rb:12 | fio_check = false counts as present, because only nil makes a property missing. |
| `Kvell.ClientCall` | lib/kvell.rb:14-18 | After any call, the cached client is the one returned and its settings equal the module's. The first call builds a client with a fresh identity. A cached client whose settings equal the module's is returned with the state unchanged, and one whose settings differ is replaced by a new identity whose connection is built from the module's settings. |
| `Kvell.SetOption` | lib/kvell/configurable.rb:18 | A module attribute writer sets its own setting and leaves the other six unchanged. The cached client and the identity counter are untouched. |
| `Kvell.ConfigureModule` | lib/kvell/configurable.rb:20-23 | Kvell.configure leaves the module's settings as the block's last writes followed by set_defaults, setting by setting, with all defaults filled. The cached client and the counter are untouched. |
| `Kvell.WriteClient` | lib/kvell/client.rb:7 | A write to a setting of the cached client changes that setting and no other. The client keeps its identity and its memoized connection, and the module's settings do not change. |
| `Kvell.ConfigureClient` | lib/kvell/configurable.rb:20-23 | configure on the cached client leaves its settings as the block's last writes followed by set_defaults, setting by setting, with all defaults filled. The client keeps its identity and its connection, and the module's settings do not change. |
| `Kvell.LemmaClientWriteDiscarded` | lib/kvell.rb:15-17 | After a call, writing a setting of the returned client to a value other than the module's makes the next call build a new client. That client has the next identity, the module's value for the setting, and a connection built from the module's settings. |
| `Kvell.LemmaClientWriteKeepsConnection` | lib/kvell/client.rb:42-55 | After a write to a built client, its fetch_banks request still uses the base URL and timeouts the client was built with. Its X-Api-Key is the written key when api_key was written, and the old key otherwise. |
| `Kvell.LemmaInitialValid` | lib/kvell.rb:15 | Before anything happens, nothing is cached (`@client` is undefined), every setting is nil, and the state is valid. |
| `Kvell.LemmaRunFromInitial` | lib/kvell.rb:14-18 | Every run from the initial state ends valid, and every identity it hands out is below the final counter. |
| `Kvell.LemmaFirstCallBuilds` | lib/kvell.rb:15-17 | With nothing cached, the call builds a client with the next identity and the module's settings, caches it, and advances the counter. |
| `Kvell.LemmaConsecutiveCallsReuse` | lib/kvell.rb:15 | Two consecutive calls with no configuration change in between return the same client and leave the state unchanged. |
| `Kvell.LemmaReuseIffSameOptions` | lib/kvell.rb:15-17 | The cached client is returned exactly when its settings equal the module's current settings. |
| `Kvell.LemmaChangedSettingRebuilds` | lib/kvell.rb:15-17 | After a call, changing any setting to a different value makes the next call build a new client, with the next identity and the new value. From a valid state, that identity differs from the first client's. |
| `Kvell.LemmaRunKeepsValid` | lib/kvell.rb:14-18 | Over any sequence of setting writes, configure calls, client calls and writes to the cached client, every identity handed out stays below the counter. When the last event was a client call, the cached client's settings equal the module's. |

## Left out

- Faraday's transport is not modelled: the connection, the adapter, real timeouts, the logger sink and `$stderr` are I/O. Timeouts appear only as the values a request carries, and the response is an input of status and body.
- Joining the base URL with the request path is Faraday's job, so a request keeps them as separate fields.
- `JSON.parse` and `to_json` are not modelled. A body is a parsed JSON value or unparsable text, and a POST body is the params as a JSON object.
- Request signing (`X-Signature`, SHA-256) is left out, because no library code computes or sends it.
- HttpClient.FetchBanksRequest: Faraday's default headers, such as `User-Agent`, are not modelled, and header names are compared exactly rather than without regard to case. `ConnectionHeaders` holds only the `Content-Type` header that `setup_headers!` sets. The model keeps header values as Ruby values, while Faraday's `Headers#[]=` sends each value's `to_s`, so a `nil` and an empty `api_key` give the same empty `X-Api-Key` header.
- HttpClient.CheckPaymentPossibilityRequest: Faraday's default headers, such as `User-Agent`, are not modelled, and header names are compared exactly rather than without regard to case. `ConnectionHeaders` holds only the `Content-Type` header that `setup_headers!` sets. The model keeps header values as Ruby values, while Faraday's `Headers#[]=` sends each value's `to_s`, so a `nil` and an empty `api_key` give the same empty `X-Api-Key` header.
- The response classes `CheckPaymentPossibility`, `CheckPaymentPossibilityStatus` and `Pay` are not modelled. No client operation builds them: `check_payment_possibility` returns the parsed body, although its doc comment names `Responses::CheckPaymentPossibility`.
- Kvell.WriteClient: a write to a client object that is no longer cached is not modelled, because nothing the module reads can see it.
- Hashie internals are left out: indifferent access, coercion, and coercing payout `errors` to `Error` records. The response models are plain records.
- `responses/base.rb` is not part of this model. Decoding a bank ignores undeclared members, reads a missing member as JSON null, and treats an array element that is not an object as a decode error.
- HttpClient.FetchBanks: the model maps a scalar top-level body and a non-empty JSON object alike to `DecodeError`. For a scalar (a number, string, `true`, `false` or `null`), Ruby raises `NoMethodError`, because the value has no `map`. For a non-empty object, `map` yields `[key, value]` pairs to `FetchBanks.new`, and what that does rests on `responses/base.rb`, which is not part of this model. An empty object gives no banks, as `{}.map` does.
- HttpClient.ParseBody: Faraday's specific 4xx subclasses (such as `UnprocessableEntityError` for 422) are collapsed into `ClientError(status)`. Only the 4xx/5xx split is kept.
- `CHECK_PAYMENT_POSSIBILITY_PATH` is not defined in client.rb or in any other Ruby file the model covers, so the path is a parameter of `CheckPaymentPossibilityRequest`.
- Requests: writing nil to a required property after construction, which Hashie also rejects, is not modelled. Only construction is.
- `Logger.new($stderr)` is modelled as a fresh object identity passed in by the caller.
- `same_options?` compares `Hash#hash` values; the model reads this as snapshot equality and ignores hash collisions.
- Thread safety of the client cache is concurrency and is out of scope.
- The require wiring in `lib/kvell/client/models.rb` is not modelled.

=== FILE: client.dfy ===
/**
  `Kvell::Client`: its settings (merged from explicit options and the
  module-level configuration), the shape of each request it sends, the
  status check that runs before any decoding, and the two operations
  `fetch_banks` and `check_payment_possibility`.

  The transport is not modelled: a request is a pure description and the
  gateway's answer is an input (status and parsed body).
*/
module HttpClient {
  import opened Wrappers
  import opened RubyValues
  import opened Json
  import Hashes
  import opened Configurable
  import Responses

  const FetchBanksPath: string := "/v1/collections/banks"

  /**
    `initialize`: starting from an object with no settings, write every
    attribute of `CONFIGURATION_OPTIONS` in turn with
    `options[attribute] || Kvell.send(attribute)`.
  */
  function InitializeFrom(attrs: seq<Setting>, options: Snapshot, kvell: Config, acc: Config): (c: Config)
    ensures forall s :: Get(c, s) == if s in attrs then Or(OptionValue(options, s), Get(kvell, s)) else Get(acc, s)
    decreases |attrs|
  {
    if |attrs| == 0 then acc
    else
      var a := attrs[0];
      var c := InitializeFrom(attrs[1..], options, kvell, Set(acc, a, Or(OptionValue(options, a), Get(kvell, a))));
      assert forall s :: s in attrs <==> s == a || s in attrs[1..];
      c
  }

  /** `options[attribute]`: `nil` when the options hash has no such key. */
  function OptionValue(options: Snapshot, s: Setting): Value {
    match Hashes.Get(options, s)
    case Some(v) => v
    case None => Nil
  }

  /**
    `Client.new(options)`: each setting is the explicit option when that
    value is truthy, and the module-level setting otherwise.
  */
  function NewClientConfig(options: Snapshot, kvell: Config): (c: Config)
    ensures forall s :: Truthy(OptionValue(options, s)) ==> Get(c, s) == OptionValue(options, s)
    ensures forall s :: !Truthy(OptionValue(options, s)) ==> Get(c, s) == Get(kvell, s)
  {
    var c := InitializeFrom(ConfigurationOptions, options, kvell, Unset);
    assert forall s :: s in ConfigurationOptions by {
      forall s ensures s in ConfigurationOptions {
        LemmaAllOptions(s);
      }
    }
    c
  }

  /** A client built from the module's own snapshot has exactly the module's settings. */
  lemma LemmaNewClientFromModuleOptions(kvell: Config)
    ensures NewClientConfig(Options(kvell), kvell) == kvell
  {
    var c := NewClientConfig(Options(kvell), kvell);
    forall s ensures Get(c, s) == Get(kvell, s) {
      LemmaOptionsGet(kvell, s);
    }
    LemmaExtensionality(c, kvell);
  }

  /** `Client.new` with no options inherits every module-level setting, `nil` ones included. */
  lemma LemmaNewClientWithoutOptions(kvell: Config)
    ensures NewClientConfig([], kvell) == kvell
  {
    var c := NewClientConfig([], kvell);
    forall s ensures Get(c, s) == Get(kvell, s) {
    }
    LemmaExtensionality(c, kvell);
  }

  datatype Verb = GET | POST

  type Headers = Hashes.Hash<string, Value>

  /**
    The Faraday connection `connection` memoizes when the client is built:
    the base URL, both timeouts and the logger are read from the settings
    once, then. Writing those settings afterwards does not reach it.
  */
  datatype Connection = Connection(url: Value, openTimeout: Value, timeout: Value, logger: Value)

  /** `Faraday.new(url: api_endpoint)` with `setup_timeouts!` and the logger middleware. */
  function Connect(c: Config): Connection {
    Connection(c.apiEndpoint, c.openTimeout, c.readTimeout, c.logger)
  }

  /**
    The connection depends on exactly four settings: two configurations
    give the same connection when, and only when, they agree on the
    endpoint, both timeouts and the logger. The API key and the two
    secrets never reach it.
  */
  lemma LemmaConnectReadsFourSettings(a: Config, b: Config)
    ensures Connect(a) == Connect(b) <==>
              forall s :: s in {ApiEndpoint, OpenTimeout, ReadTimeout, Logger} ==> Get(a, s) == Get(b, s)
  {
    if forall s :: s in {ApiEndpoint, OpenTimeout, ReadTimeout, Logger} ==> Get(a, s) == Get(b, s) {
      assert Get(a, ApiEndpoint) == Get(b, ApiEndpoint) && Get(a, Logger) == Get(b, Logger);
      assert Get(a, OpenTimeout) == Get(b, OpenTimeout) && Get(a, ReadTimeout) == Get(b, ReadTimeout);
    }
  }

  /** A request as the connection would send it. */
  datatype Request = Request(
    verb: Verb,
    baseUrl: Value,
    path: string,
    openTimeout: Value,
    timeout: Value,
    headers: Headers,
    query: Hashes.Hash<string, JsonValue>,
    body: Option<JsonValue>)

  /** `setup_headers!`: the header every request made through the connection starts with. */
  const ConnectionHeaders: Headers := [("Content-Type", Str("application/json"))]

  /** Merging the `X-Api-Key` header into the connection headers appends it after `Content-Type`. */
  lemma LemmaApiKeyHeaders(v: Value)
    ensures Hashes.Merge(ConnectionHeaders, [("X-Api-Key", v)])
            == [("Content-Type", Str("application/json")), ("X-Api-Key", v)]
  {
    assert "Content-Type" != "X-Api-Key" by {
      assert |"Content-Type"| != |"X-Api-Key"|;
    }
    var h2: Headers := [("X-Api-Key", v)];
    assert h2[1..] == [];
    assert ConnectionHeaders[1..] == [];
  }

  /**
    `http_get`: a GET of `resource` on the connection (its base URL and
    timeouts), the connection headers with the per-call headers merged in,
    and `params` as the query.
  */
  function HttpGet(conn: Connection, resource: string, params: Hashes.Hash<string, JsonValue>, headers: Headers): (r: Request)
    ensures r.verb == GET && r.path == resource && r.body == None && r.query == params
    ensures r.baseUrl == conn.url && r.openTimeout == conn.openTimeout && r.timeout == conn.timeout
    ensures Hashes.UniqueKeys(headers) ==>
              forall k :: Hashes.Get(r.headers, k) ==
                (if k in Hashes.Keys(headers) then Hashes.Get(headers, k) else Hashes.Get(ConnectionHeaders, k))
    ensures Hashes.UniqueKeys(r.headers)
    ensures |r.headers| >= |ConnectionHeaders| && Hashes.Keys(r.headers)[..|ConnectionHeaders|] == Hashes.Keys(ConnectionHeaders)
  {
    var h := Hashes.Merge(ConnectionHeaders, headers);
    Hashes.LemmaMergeKeys(ConnectionHeaders, headers);
    forall k | Hashes.UniqueKeys(headers) ensures Hashes.Get(h, k) ==
      (if k in Hashes.Keys(headers) then Hashes.Get(headers, k) else Hashes.Get(ConnectionHeaders, k))
    {
      Hashes.LemmaMergeGet(ConnectionHeaders, headers, k);
    }
    Request(GET, conn.url, resource, conn.openTimeout, conn.timeout, h, params, None)
  }

  /**
    `http_post`: a POST of `resource` with the connection headers and the
    per-call headers merged in, and `params` serialised as the JSON body.
  */
  function HttpPost(conn: Connection, resource: string, params: Hashes.Hash<string, JsonValue>, headers: Headers): (r: Request)
    ensures r.verb == POST && r.path == resource && r.body == Some(JObject(params)) && r.query == []
    ensures r.baseUrl == conn.url && r.openTimeout == conn.openTimeout && r.timeout == conn.timeout
    ensures Hashes.UniqueKeys(headers) ==>
              forall k :: Hashes.Get(r.headers, k) ==
                (if k in Hashes.Keys(headers) then Hashes.Get(headers, k) else Hashes.Get(ConnectionHeaders, k))
    ensures Hashes.UniqueKeys(r.headers)
    ensures |r.headers| >= |ConnectionHeaders| && Hashes.Keys(r.headers)[..|ConnectionHeaders|] == Hashes.Keys(ConnectionHeaders)
  {
    var h := Hashes.Merge(ConnectionHeaders, headers);
    Hashes.LemmaMergeKeys(ConnectionHeaders, headers);
    forall k | Hashes.UniqueKeys(headers) ensures Hashes.Get(h, k) ==
      (if k in Hashes.Keys(headers) then Hashes.Get(headers, k) else Hashes.Get(ConnectionHeaders, k))
    {
      Hashes.LemmaMergeGet(ConnectionHeaders, headers, k);
    }
    Request(POST, conn.url, resource, conn.openTimeout, conn.timeout, h, [], Some(JObject(params)))
  }

  /** The per-call header both operations send. */
  function ApiKeyHeader(c: Config): Headers {
    [("X-Api-Key", c.apiKey)]
  }

  /** The body of a response: a parsed JSON document, or text `JSON.parse` rejects. */
  datatype Body = Parsed(json: JsonValue) | Unparsable

  datatype Response = Response(status: int, body: Body)

  /** What an operation raises instead of returning. */
  datatype Error =
    | ClientError(status: int)   // a 4xx status; 422 is Faraday's UnprocessableEntityError
    | ServerError(status: int)   // a 5xx status
    | ParserError                // a body that is not JSON
    | DecodeError                // JSON whose shape the operation cannot map to records

  /** The `raise_error` response middleware: 4xx and 5xx statuses are raised, other statuses pass. */
  function RaiseError(status: int): Option<Error> {
    if 400 <= status < 500 then Some(ClientError(status))
    else if 500 <= status < 600 then Some(ServerError(status))
    else None
  }

  /**
    Status check, then `JSON.parse(response.body)`. An error status is
    raised whatever the body holds: the body is never parsed.
  */
  function ParseBody(resp: Response): (r: Result<JsonValue, Error>)
    ensures 400 <= resp.status < 500 ==> r == Failure(ClientError(resp.status))
    ensures 500 <= resp.status < 600 ==> r == Failure(ServerError(resp.status))
    ensures r.Success? <==> !(400 <= resp.status < 600) && resp.body.Parsed?
    ensures r.Success? ==> r.value == resp.body.json
    ensures r == Failure(ParserError) <==> !(400 <= resp.status < 600) && resp.body.Unparsable?
  {
    match RaiseError(resp.status)
    case Some(e) => Failure(e)
    case None =>
      match resp.body
      case Parsed(j) => Success(j)
      case Unparsable => Failure(ParserError)
  }

  /**
    `fetch_banks` request: a GET of `/v1/collections/banks` on the client's
    memoized connection `conn`, with the API key read from the client's
    current settings `c` at the time of the call.
  */
  function FetchBanksRequest(conn: Connection, c: Config): (r: Request)
    ensures r.verb == GET && r.path == FetchBanksPath && r.body == None && r.query == []
    ensures r.baseUrl == conn.url && r.openTimeout == conn.openTimeout && r.timeout == conn.timeout
    ensures Hashes.Get(r.headers, "X-Api-Key") == Some(c.apiKey)
    ensures Hashes.Get(r.headers, "Content-Type") == Some(Str("application/json"))
    ensures Hashes.Keys(r.headers) == ["Content-Type", "X-Api-Key"]
  {
    LemmaApiKeyHeaders(c.apiKey);
    HttpGet(conn, FetchBanksPath, [], ApiKeyHeader(c))
  }

  /** One bank record per array element, in order; an element that is not an object cannot be decoded. */
  function DecodeBanks(items: seq<JsonValue>): (r: Result<seq<Responses.Bank>, Error>)
    ensures r.Success? <==> forall i :: 0 <= i < |items| ==> items[i].JObject?
    ensures r.Success? ==> |r.value| == |items|
    ensures r.Success? ==> forall i :: 0 <= i < |items| ==> r.value[i] == Responses.DecodeBank(items[i].members)
    ensures r.Failure? ==> r.error == DecodeError
    decreases |items|
  {
    if |items| == 0 then Success([])
    else if !items[0].JObject? then Failure(DecodeError)
    else
      var rest := DecodeBanks(items[1..]);
      assert forall i :: 1 <= i < |items| ==> items[i] == items[1..][i - 1];
      match rest
      case Failure(e) => Failure(e)
      case Success(banks) => Success([Responses.DecodeBank(items[0].members)] + banks)
  }

  /**
    `fetch_banks` on the gateway's answer: `JSON.parse(body).map { FetchBanks.new(_) }`.
    An empty JSON object maps to no banks, as `{}.map` does.
  */
  function FetchBanks(resp: Response): (r: Result<seq<Responses.Bank>, Error>)
    ensures 400 <= resp.status < 500 ==> r == Failure(ClientError(resp.status))
    ensures 500 <= resp.status < 600 ==> r == Failure(ServerError(resp.status))
    ensures r.Success? ==> !(400 <= resp.status < 600) && resp.body.Parsed?
    ensures r.Success? && resp.body.json.JArray? ==>
              |r.value| == |resp.body.json.items|
              && forall i :: 0 <= i < |r.value| ==>
                   resp.body.json.items[i].JObject?
                   && r.value[i] == Responses.DecodeBank(resp.body.json.items[i].members)
    ensures r.Success? && !resp.body.json.JArray? ==> r.value == []
    ensures r.Success? <==>
              !(400 <= resp.status < 600) && resp.body.Parsed?
              && ((resp.body.json.JArray? && forall i :: 0 <= i < |resp.body.json.items| ==> resp.body.json.items[i].JObject?)
                  || (resp.body.json.JObject? && |resp.body.json.members| == 0))
    ensures !(400 <= resp.status < 600) && resp.body.Unparsable? ==> r == Failure(ParserError)
    ensures !(400 <= resp.status < 600) && resp.body.Parsed? && r.Failure? ==> r == Failure(DecodeError)
  {
    match ParseBody(resp)
    case Failure(e) => Failure(e)
    case Success(j) =>
      match j
      case JArray(items) => DecodeBanks(items)
      case JObject(members) => if |members| == 0 then Success([]) else Failure(DecodeError)
      case _ => Failure(DecodeError)
  }

  /** The gateway's array of bank objects decodes back to exactly those banks, in order. */
  lemma LemmaFetchBanksRoundTrip(banks: seq<Responses.Bank>, status: int)
    requires 200 <= status < 300
    ensures FetchBanks(Response(status, Parsed(JArray(seq(|banks|, i requires 0 <= i < |banks| => Responses.BankJson(banks[i])))))) == Success(banks)
  {
    var items := seq(|banks|, i requires 0 <= i < |banks| => Responses.BankJson(banks[i]));
    var r := FetchBanks(Response(status, Parsed(JArray(items))));
    assert forall i :: 0 <= i < |items| ==> items[i].JObject?;
    assert r.Success?;
    forall i | 0 <= i < |banks| ensures r.value[i] == banks[i] {
      Responses.LemmaBankRoundTrip(banks[i]);
    }
    assert r.value == banks;
  }

  /**
    `check_payment_possibility(**params)` request: a POST of the params as
    the JSON body on the memoized connection `conn`, with only the
    `X-Api-Key` per-call header, read from the current settings `c`.
    `path` is `CHECK_PAYMENT_POSSIBILITY_PATH`, whose value is not part of
    this model.
  */
  function CheckPaymentPossibilityRequest(conn: Connection, c: Config, path: string,
                                          params: Hashes.Hash<string, JsonValue>): (r: Request)
    ensures r.verb == POST && r.path == path && r.body == Some(JObject(params)) && r.query == []
    ensures r.baseUrl == conn.url && r.openTimeout == conn.openTimeout && r.timeout == conn.timeout
    ensures Hashes.Get(r.headers, "X-Api-Key") == Some(c.apiKey)
    ensures Hashes.Get(r.headers, "Content-Type") == Some(Str("application/json"))
    ensures Hashes.Keys(r.headers) == ["Content-Type", "X-Api-Key"]
  {
    LemmaApiKeyHeaders(c.apiKey);
    HttpPost(conn, path, params, ApiKeyHeader(c))
  }

  /** `check_payment_possibility` on the gateway's answer: the parsed body, unchanged. */
  function CheckPaymentPossibility(resp: Response): (r: Result<JsonValue, Error>)
    ensures 400 <= resp.status < 500 ==> r == Failure(ClientError(resp.status))
    ensures 500 <= resp.status < 600 ==> r == Failure(ServerError(resp.status))
    ensures r.Success? <==> !(400 <= resp.status < 600) && resp.body.Parsed?
    ensures r.Success? ==> r.value == resp.body.json
    ensures !(400 <= resp.status < 600) && resp.body.Unparsable? ==> r == Failure(ParserError)
  {
    ParseBody(resp)
  }

  /** A 422 answer raises `ClientError(422)` from both operations, whatever the body holds. */
  lemma LemmaUnprocessableEntityRaises(body: Body)
    ensures FetchBanks(Response(422, body)) == Failure(ClientError(422))
    ensures CheckPaymentPossibility(Response(422, body)) == Failure(ClientError(422))
  {
  }

  /** A one-bank answer holding the bank the test expects decodes to that bank. */
  lemma LemmaFetchBanksAlfaBank()
    ensures FetchBanks(Response(200, Parsed(JArray([JObject([
              ("bank_id", JString("100000000008")),
              ("bank_bic", JString("044525593")),
              ("name", JString("Альфа-Банк"))])]))))
            == Success([Responses.Bank(JString("100000000008"), JString("044525593"), JString("Альфа-Банк"))])
  {
    var bank := Responses.Bank(JString("100000000008"), JString("044525593"), JString("Альфа-Банк"));
    LemmaFetchBanksRoundTrip([bank], 200);
    assert seq(1, i requires 0 <= i < 1 => Responses.BankJson([bank][i])) == [Responses.BankJson(bank)];
  }
}

=== FILE: configurable.dfy ===
/**
  The configuration holder mixed into both the `Kvell` module and every
  `Kvell::Client`: seven optional settings, a defaulting step, a `configure`
  entry point, and an ordered snapshot used to decide client reuse.
*/
module Configurable {
  import opened Wrappers
  import opened RubyValues
  import Hashes

  /** The seven attribute names, in the order `CONFIGURATION_OPTIONS` lists them. */
  datatype Setting =
    | ApiEndpoint
    | ApiKey
    | SecretKey
    | PayoutSecretKey
    | Logger
    | OpenTimeout
    | ReadTimeout

  const ConfigurationOptions: seq<Setting> :=
    [ApiEndpoint, ApiKey, SecretKey, PayoutSecretKey, Logger, OpenTimeout, ReadTimeout]

  const DefaultsReadTimeout: int := 5
  const DefaultsOpenTimeout: int := 2

  datatype Config = Config(
    apiEndpoint: Value,
    apiKey: Value,
    secretKey: Value,
    payoutSecretKey: Value,
    logger: Value,
    openTimeout: Value,
    readTimeout: Value)

  /** An object whose attributes were never assigned: every reader returns `nil`. */
  const Unset: Config := Config(Nil, Nil, Nil, Nil, Nil, Nil, Nil)

  /** The `attr_accessor` reader for setting `s`. */
  function Get(c: Config, s: Setting): Value {
    match s
    case ApiEndpoint => c.apiEndpoint
    case ApiKey => c.apiKey
    case SecretKey => c.secretKey
    case PayoutSecretKey => c.payoutSecretKey
    case Logger => c.logger
    case OpenTimeout => c.openTimeout
    case ReadTimeout => c.readTimeout
  }

  /** The `attr_accessor` writer for setting `s`: it changes that setting and nothing else. */
  function Set(c: Config, s: Setting, v: Value): (r: Config)
    ensures Get(r, s) == v
    ensures forall t :: t != s ==> Get(r, t) == Get(c, t)
  {
    match s
    case ApiEndpoint => c.(apiEndpoint := v)
    case ApiKey => c.(apiKey := v)
    case SecretKey => c.(secretKey := v)
    case PayoutSecretKey => c.(payoutSecretKey := v)
    case Logger => c.(logger := v)
    case OpenTimeout => c.(openTimeout := v)
    case ReadTimeout => c.(readTimeout := v)
  }

  /** Every setting is one of the configuration options. */
  lemma LemmaAllOptions(s: Setting)
    ensures s in ConfigurationOptions
  {
    match s
    case ApiEndpoint => assert ConfigurationOptions[0] == s;
    case ApiKey => assert ConfigurationOptions[1] == s;
    case SecretKey => assert ConfigurationOptions[2] == s;
    case PayoutSecretKey => assert ConfigurationOptions[3] == s;
    case Logger => assert ConfigurationOptions[4] == s;
    case OpenTimeout => assert ConfigurationOptions[5] == s;
    case ReadTimeout => assert ConfigurationOptions[6] == s;
  }

  /** Two configurations that agree on every setting are the same configuration. */
  lemma LemmaExtensionality(a: Config, b: Config)
    requires forall s :: Get(a, s) == Get(b, s)
    ensures a == b
  {
    assert Get(a, ApiEndpoint) == Get(b, ApiEndpoint);
    assert Get(a, ApiKey) == Get(b, ApiKey);
    assert Get(a, SecretKey) == Get(b, SecretKey);
    assert Get(a, PayoutSecretKey) == Get(b, PayoutSecretKey);
    assert Get(a, Logger) == Get(b, Logger);
    assert Get(a, OpenTimeout) == Get(b, OpenTimeout);
    assert Get(a, ReadTimeout) == Get(b, ReadTimeout);
  }

  /** The settings `set_defaults` fills in are all present (truthy). */
  predicate Defaulted(c: Config) {
    Truthy(c.readTimeout) && Truthy(c.openTimeout) && Truthy(c.logger)
  }

  /**
    `set_defaults`: `read_timeout ||= 5`, `open_timeout ||= 2`,
    `logger ||= Logger.new($stderr)`. The new logger is a fresh object,
    identified here by `loggerId`. A setting is replaced only when it is
    `nil` or `false`; `0` and `""` are kept.
  */
  function SetDefaults(c: Config, loggerId: nat): (r: Config)
    ensures Defaulted(r)
    ensures Truthy(c.readTimeout) ==> r.readTimeout == c.readTimeout
    ensures !Truthy(c.readTimeout) ==> r.readTimeout == Int(DefaultsReadTimeout)
    ensures Truthy(c.openTimeout) ==> r.openTimeout == c.openTimeout
    ensures !Truthy(c.openTimeout) ==> r.openTimeout == Int(DefaultsOpenTimeout)
    ensures Truthy(c.logger) ==> r.logger == c.logger
    ensures !Truthy(c.logger) ==> r.logger == Object(loggerId)
    ensures forall s :: s !in {ReadTimeout, OpenTimeout, Logger} ==> Get(r, s) == Get(c, s)
  {
    c.(readTimeout := Or(c.readTimeout, Int(DefaultsReadTimeout)),
       openTimeout := Or(c.openTimeout, Int(DefaultsOpenTimeout)),
       logger := Or(c.logger, Object(loggerId)))
  }

  /**
    `set_defaults` changes a configuration exactly when one of its three
    defaulted settings is missing.
  */
  lemma LemmaSetDefaultsFixpoint(c: Config, loggerId: nat)
    ensures SetDefaults(c, loggerId) == c <==> Defaulted(c)
  {
  }

  /** Applying `set_defaults` twice equals applying it once, whatever logger the second call would create. */
  lemma LemmaSetDefaultsIdempotent(c: Config, first: nat, second: nat)
    ensures SetDefaults(SetDefaults(c, first), second) == SetDefaults(c, first)
  {
    LemmaSetDefaultsFixpoint(SetDefaults(c, first), second);
  }

  /** An attribute write `config.<setting> = value` made inside the `configure` block. */
  type Assignment = (Setting, Value)

  /** The effect of the caller's block: its attribute writes, applied in order. */
  function Assign(c: Config, writes: seq<Assignment>): Config
    decreases |writes|
  {
    if |writes| == 0 then c else Assign(Set(c, writes[0].0, writes[0].1), writes[1..])
  }

  /** The last value the block wrote to setting `s`, if it wrote one. */
  function LastWrite(writes: seq<Assignment>, s: Setting): Option<Value>
    decreases |writes|
  {
    if |writes| == 0 then None
    else if writes[|writes| - 1].0 == s then Some(writes[|writes| - 1].1)
    else LastWrite(writes[..|writes| - 1], s)
  }

  lemma {:induction false} LemmaAssignSnoc(c: Config, writes: seq<Assignment>, w: Assignment)
    ensures Assign(c, writes + [w]) == Set(Assign(c, writes), w.0, w.1)
    decreases |writes|
  {
    if |writes| != 0 {
      assert (writes + [w])[1..] == writes[1..] + [w];
      LemmaAssignSnoc(Set(c, writes[0].0, writes[0].1), writes[1..], w);
    }
  }

  /** After the block runs, each setting holds the last value written to it, or its old value if none was. */
  lemma {:induction false} LemmaAssignLastWriteWins(c: Config, writes: seq<Assignment>, s: Setting)
    ensures Get(Assign(c, writes), s) == match LastWrite(writes, s) case Some(v) => v case None => Get(c, s)
    decreases |writes|
  {
    if |writes| != 0 {
      var init, w := writes[..|writes| - 1], writes[|writes| - 1];
      assert writes == init + [w];
      LemmaAssignSnoc(c, init, w);
      LemmaAssignLastWriteWins(c, init, s);
    }
  }

  /** `configure`: run the caller's block, then `set_defaults`. */
  function Configure(c: Config, writes: seq<Assignment>, loggerId: nat): Config {
    SetDefaults(Assign(c, writes), loggerId)
  }

  /**
    A setting the block last set to a truthy value survives `configure`;
    the four settings without defaults hold exactly what the block last
    wrote (or their old value), even when that is `nil`.
  */
  lemma LemmaConfigureKeepsExplicitValues(c: Config, writes: seq<Assignment>, loggerId: nat, s: Setting)
    ensures LastWrite(writes, s).Some? && Truthy(LastWrite(writes, s).value) ==>
              Get(Configure(c, writes, loggerId), s) == LastWrite(writes, s).value
    ensures s !in {ReadTimeout, OpenTimeout, Logger} ==>
              Get(Configure(c, writes, loggerId), s) == Get(Assign(c, writes), s)
    ensures Defaulted(Configure(c, writes, loggerId))
  {
    LemmaAssignLastWriteWins(c, writes, s);
  }

  /** What setting `s` holds once the block's writes are done: its last write, or its old value. */
  function Written(c: Config, writes: seq<Assignment>, s: Setting): Value {
    match LastWrite(writes, s)
    case Some(v) => v
    case None => Get(c, s)
  }

  /**
    `r` is what `configure` leaves when the block writes `writes` over `c`:
    a setting without a default, or one the block left truthy, holds what
    the block left; a defaulted setting the block left `nil` or `false`
    holds its default.
  */
  predicate ConfiguredFrom(r: Config, c: Config, writes: seq<Assignment>, loggerId: nat) {
    (forall s :: s !in {ReadTimeout, OpenTimeout, Logger} || Truthy(Written(c, writes, s)) ==>
       Get(r, s) == Written(c, writes, s))
    && (!Truthy(Written(c, writes, ReadTimeout)) ==> r.readTimeout == Int(DefaultsReadTimeout))
    && (!Truthy(Written(c, writes, OpenTimeout)) ==> r.openTimeout == Int(DefaultsOpenTimeout))
    && (!Truthy(Written(c, writes, Logger)) ==> r.logger == Object(loggerId))
  }

  /** `configure` runs the whole block before `set_defaults`: its result is fixed by the block's last writes. */
  lemma LemmaConfigureFromWrites(c: Config, writes: seq<Assignment>, loggerId: nat)
    ensures ConfiguredFrom(Configure(c, writes, loggerId), c, writes, loggerId)
  {
    forall s ensures Get(Assign(c, writes), s) == Written(c, writes, s) {
      LemmaAssignLastWriteWins(c, writes, s);
    }
    assert Assign(c, writes).readTimeout == Get(Assign(c, writes), ReadTimeout);
    assert Assign(c, writes).openTimeout == Get(Assign(c, writes), OpenTimeout);
    assert Assign(c, writes).logger == Get(Assign(c, writes), Logger);
  }

  /** A snapshot of the settings: the ordered hash `options` returns. */
  type Snapshot = Hashes.Hash<Setting, Value>

  /**
    `options`: a hash whose keys are exactly `CONFIGURATION_OPTIONS`, in
    that order, each mapped to the current value of that setting.
  */
  function Options(c: Config): (r: Snapshot)
    ensures Hashes.Keys(r) == ConfigurationOptions
    ensures forall i :: 0 <= i < |r| ==> r[i].1 == Get(c, r[i].0)
  {
    [(ApiEndpoint, c.apiEndpoint), (ApiKey, c.apiKey), (SecretKey, c.secretKey),
     (PayoutSecretKey, c.payoutSecretKey), (Logger, c.logger),
     (OpenTimeout, c.openTimeout), (ReadTimeout, c.readTimeout)]
  }

  /** Reading any setting from the snapshot gives that setting's value. */
  lemma LemmaOptionsGet(c: Config, s: Setting)
    ensures Hashes.Get(Options(c), s) == Some(Get(c, s))
  {
    LemmaAllOptions(s);
    Hashes.LemmaGetConsistent(Options(c), s, Get(c, s));
  }

  /** Snapshots are equal exactly when the configurations are. */
  lemma LemmaOptionsInjective(a: Config, b: Config)
    ensures Options(a) == Options(b) <==> a == b
  {
    if Options(a) == Options(b) {
      forall s ensures Get(a, s) == Get(b, s) {
        LemmaOptionsGet(a, s);
        LemmaOptionsGet(b, s);
      }
      LemmaExtensionality(a, b);
    }
  }

  /** `same_options?`: this object's snapshot equals the given one (hash equality read as value equality). */
  predicate SameOptions(c: Config, other: Snapshot) {
    Options(c) == other
  }

  /** `same_options?` against another object's snapshot holds exactly when all seven settings agree. */
  lemma LemmaSameOptionsIffEqual(a: Config, b: Config)
    ensures SameOptions(a, Options(b)) <==> a == b
    ensures SameOptions(a, Options(b)) <==> forall s :: Get(a, s) == Get(b, s)
  {
    LemmaOptionsInjective(a, b);
    if forall s :: Get(a, s) == Get(b, s) {
      LemmaExtensionality(a, b);
    }
  }
}

=== FILE: hashes.dfy ===
/**
  Ruby's `Hash`: an insertion-ordered table, modelled as a sequence of
  key/value entries. Reading a key takes its first entry; Ruby hashes never
  hold a key twice, which `UniqueKeys` states and every writer preserves.
*/
module Hashes {
  import opened Wrappers

  type Hash<K, V> = seq<(K, V)>

  /** The keys in insertion order. */
  function Keys<K, V>(h: Hash<K, V>): (ks: seq<K>)
    ensures |ks| == |h|
    ensures forall i :: 0 <= i < |h| ==> ks[i] == h[i].0
  {
    if |h| == 0 then [] else [h[0].0] + Keys(h[1..])
  }

  predicate UniqueKeys<K(==,!new), V>(h: Hash<K, V>) {
    forall i, j :: 0 <= i < j < |h| ==> h[i].0 != h[j].0
  }

  /** `h[k]`: the value stored under `k`, if any. */
  function Get<K(==,!new), V>(h: Hash<K, V>, k: K): (r: Option<V>)
    ensures r.None? <==> k !in Keys(h)
    ensures UniqueKeys(h) ==> forall i :: 0 <= i < |h| && h[i].0 == k ==> r == Some(h[i].1)
  {
    if |h| == 0 then None
    else if h[0].0 == k then
      assert Keys(h)[0] == k;
      Some(h[0].1)
    else
      assert Keys(h) == [h[0].0] + Keys(h[1..]);
      Get(h[1..], k)
  }

  /** `h[k] = v`: an existing key keeps its position and takes the new value; a new key is appended. */
  function Put<K(==,!new), V>(h: Hash<K, V>, k: K, v: V): Hash<K, V> {
    if |h| == 0 then [(k, v)]
    else if h[0].0 == k then [(k, v)] + h[1..]
    else [h[0]] + Put(h[1..], k, v)
  }

  /** After `h[k] = v`, reading `k` gives `v` and every other key reads as before. */
  lemma {:induction false} LemmaPutGet<K(!new), V>(h: Hash<K, V>, k: K, v: V, j: K)
    ensures Get(Put(h, k, v), j) == if j == k then Some(v) else Get(h, j)
    decreases |h|
  {
    if |h| == 0 {
    } else if h[0].0 == k {
      var r := [(k, v)] + h[1..];
      assert r[1..] == h[1..];
    } else {
      LemmaPutGet(h[1..], k, v, j);
      var r := [h[0]] + Put(h[1..], k, v);
      assert r[1..] == Put(h[1..], k, v);
    }
  }

  /** Writing an existing key keeps the key order; writing a new key appends it. */
  lemma {:induction false} LemmaPutKeys<K(!new), V>(h: Hash<K, V>, k: K, v: V)
    ensures k in Keys(h) ==> Keys(Put(h, k, v)) == Keys(h)
    ensures k !in Keys(h) ==> Keys(Put(h, k, v)) == Keys(h) + [k]
    decreases |h|
  {
    if |h| == 0 {
    } else if h[0].0 == k {
      var r := [(k, v)] + h[1..];
      assert r[1..] == h[1..];
      assert Keys(r) == [k] + Keys(h[1..]);
    } else {
      LemmaPutKeys(h[1..], k, v);
      var r := [h[0]] + Put(h[1..], k, v);
      assert r[1..] == Put(h[1..], k, v);
      assert Keys(r) == [h[0].0] + Keys(Put(h[1..], k, v));
      assert Keys(h) == [h[0].0] + Keys(h[1..]);
    }
  }

  lemma LemmaPutUnique<K(!new), V>(h: Hash<K, V>, k: K, v: V)
    requires UniqueKeys(h)
    ensures UniqueKeys(Put(h, k, v))
  {
    LemmaPutKeys(h, k, v);
    var r := Put(h, k, v);
    if k !in Keys(h) {
      forall i, j | 0 <= i < j < |r| ensures r[i].0 != r[j].0 {
        assert Keys(r)[i] == r[i].0 && Keys(r)[j] == r[j].0;
        if j == |h| {
          assert Keys(r)[j] == k;
          assert Keys(h)[i] == r[i].0;
        } else {
          assert Keys(h)[i] == h[i].0 && Keys(h)[j] == h[j].0;
        }
      }
    } else {
      forall i, j | 0 <= i < j < |r| ensures r[i].0 != r[j].0 {
        assert Keys(r)[i] == r[i].0 && Keys(r)[j] == r[j].0;
        assert Keys(h)[i] == h[i].0 && Keys(h)[j] == h[j].0;
      }
    }
  }

  /** `h1.merge!(h2)`: every entry of `h2`, in order, written into `h1`. */
  function Merge<K(==,!new), V>(h1: Hash<K, V>, h2: Hash<K, V>): Hash<K, V>
    decreases |h2|
  {
    if |h2| == 0 then h1 else Merge(Put(h1, h2[0].0, h2[0].1), h2[1..])
  }

  /**
    After `h1.merge!(h2)`, a key of `h2` reads as in `h2` and any other key
    reads as in `h1`.
  */
  lemma {:induction false} LemmaMergeGet<K(!new), V>(h1: Hash<K, V>, h2: Hash<K, V>, k: K)
    requires UniqueKeys(h2)
    ensures Get(Merge(h1, h2), k) == if k in Keys(h2) then Get(h2, k) else Get(h1, k)
    decreases |h2|
  {
    if |h2| != 0 {
      var k0, v0 := h2[0].0, h2[0].1;
      assert Keys(h2) == [k0] + Keys(h2[1..]);
      assert UniqueKeys(h2[1..]);
      LemmaMergeGet(Put(h1, k0, v0), h2[1..], k);
      LemmaPutGet(h1, k0, v0, k);
      if k == k0 {
        assert k !in Keys(h2[1..]) by {
          forall i | 0 <= i < |h2[1..]| ensures Keys(h2[1..])[i] != k0 {
            assert h2[1..][i] == h2[i + 1];
          }
        }
      }
    }
  }

  /** `merge!` keeps the existing keys of `h1` first, in their order, and keeps keys unique. */
  lemma {:induction false} LemmaMergeKeys<K(!new), V>(h1: Hash<K, V>, h2: Hash<K, V>)
    ensures |Merge(h1, h2)| >= |h1| && Keys(Merge(h1, h2))[..|h1|] == Keys(h1)
    ensures UniqueKeys(h1) ==> UniqueKeys(Merge(h1, h2))
    decreases |h2|
  {
    if |h2| != 0 {
      var p := Put(h1, h2[0].0, h2[0].1);
      LemmaPutKeys(h1, h2[0].0, h2[0].1);
      LemmaMergeKeys(p, h2[1..]);
      assert Keys(p)[..|h1|] == Keys(h1);
      if UniqueKeys(h1) {
        LemmaPutUnique(h1, h2[0].0, h2[0].1);
      }
    }
  }

  /** A key whose every entry holds `v` reads as `v`. */
  lemma {:induction false} LemmaGetConsistent<K(!new), V>(h: Hash<K, V>, k: K, v: V)
    requires k in Keys(h)
    requires forall i :: 0 <= i < |h| && h[i].0 == k ==> h[i].1 == v
    ensures Get(h, k) == Some(v)
    decreases |h|
  {
    if h[0].0 != k {
      assert Keys(h) == [h[0].0] + Keys(h[1..]);
      assert forall i :: 0 <= i < |h[1..]| ==> h[1..][i] == h[i + 1];
      LemmaGetConsistent(h[1..], k, v);
    }
  }
}

=== FILE: json.dfy ===
/**
  An already-parsed JSON document. Parsing and serialising text are not
  part of this model; a response body is either one of these values or
  text that does not parse. An object that `JSON.parse` produces never
  repeats a key (for a repeated key in the text, the last one is kept),
  so reading the first entry with a key, as `Member` does, reads the
  value `JSON.parse` kept.
*/
module Json {
  import opened Wrappers
  import Hashes

  datatype JsonValue =
    | JNull
    | JBool(b: bool)
    | JNumber(n: int)
    | JString(s: string)
    | JArray(items: seq<JsonValue>)
    | JObject(members: Hashes.Hash<string, JsonValue>)

  /** `object[key]` on a parsed object: `null` when the object has no such member. */
  function Member(members: Hashes.Hash<string, JsonValue>, key: string): JsonValue {
    match Hashes.Get(members, key)
    case Some(v) => v
    case None => JNull
  }
}

=== FILE: kvell.dfy ===
/**
  The `Kvell` module: a process-wide configuration and a one-slot cache of
  the client built from it. `Kvell.client` reuses the cached client while
  its settings still equal the module's, and builds a new one otherwise.
  Each client object is told apart by an identity token handed out from a
  counter.
*/
module Kvell {
  import opened Wrappers
  import opened RubyValues
  import opened Configurable
  import Hashes
  import HttpClient

  /**
    A `Kvell::Client` object: its identity, its current settings (the
    client includes `Configurable`, so they can be written after it is
    built) and the connection memoized from the settings it was built with.
  */
  datatype ClientObject = ClientObject(id: nat, config: Config, connection: HttpClient.Connection)

  /** The module's state: its settings, `@client` once defined, and the next identity to hand out. */
  datatype State = State(config: Config, cached: Option<ClientObject>, nextId: nat)

  /** The module before anything is configured or any client is requested. */
  const Initial: State := State(Unset, None, 0)

  /** Every identity handed out so far, the cached client's included, is below `nextId`. */
  predicate Valid(st: State) {
    st.cached.Some? ==> st.cached.value.id < st.nextId
  }

  /** `Kvell.api_key = v` and the other attribute writers. */
  function SetOption(st: State, s: Setting, v: Value): (r: State)
    ensures Get(r.config, s) == v
    ensures forall t :: t != s ==> Get(r.config, t) == Get(st.config, t)
    ensures r.cached == st.cached && r.nextId == st.nextId
  {
    st.(config := Set(st.config, s, v))
  }

  /** `Kvell.configure { ... }`: the block's writes, then the defaults; the cached client is untouched. */
  function ConfigureModule(st: State, writes: seq<Assignment>, loggerId: nat): (r: State)
    ensures Defaulted(r.config)
    ensures ConfiguredFrom(r.config, st.config, writes, loggerId)
    ensures r.cached == st.cached && r.nextId == st.nextId
  {
    LemmaConfigureFromWrites(st.config, writes, loggerId);
    st.(config := Configure(st.config, writes, loggerId))
  }

  /**
    `Kvell.client.api_key = v` and the other writers, on the cached client
    object: its settings change, its memoized connection does not, and the
    module's own settings are untouched. A write to a client object that
    is no longer cached changes nothing the module can observe.
  */
  function WriteClient(st: State, s: Setting, v: Value): (r: State)
    ensures r.config == st.config && r.nextId == st.nextId
    ensures r.cached.Some? <==> st.cached.Some?
    ensures st.cached.Some? ==>
              r.cached.value.id == st.cached.value.id
              && r.cached.value.connection == st.cached.value.connection
              && Get(r.cached.value.config, s) == v
              && forall t :: t != s ==> Get(r.cached.value.config, t) == Get(st.cached.value.config, t)
  {
    match st.cached
    case None => st
    case Some(c) => st.(cached := Some(c.(config := Set(c.config, s, v))))
  }

  /** `client.configure { ... }` on the cached client object: the block's writes, then its defaults. */
  function ConfigureClient(st: State, writes: seq<Assignment>, loggerId: nat): (r: State)
    ensures r.config == st.config && r.nextId == st.nextId
    ensures r.cached.Some? <==> st.cached.Some?
    ensures st.cached.Some? ==>
              r.cached.value.id == st.cached.value.id
              && r.cached.value.connection == st.cached.value.connection
              && Defaulted(r.cached.value.config)
              && ConfiguredFrom(r.cached.value.config, st.cached.value.config, writes, loggerId)
  {
    match st.cached
    case None => st
    case Some(c) =>
      LemmaConfigureFromWrites(c.config, writes, loggerId);
      st.(cached := Some(c.(config := Configure(c.config, writes, loggerId))))
  }

  /**
    `Kvell.client`: the cached client when `@client.same_options?(options)`,
    otherwise `Client.new(options)` stored in the cache. Returns the new
    state and the client handed to the caller.
  */
  function ClientCall(st: State): (r: (State, ClientObject))
    ensures r.0.config == st.config
    ensures r.0.cached == Some(r.1)
    ensures r.1.config == st.config
    ensures !(st.cached.Some? && st.cached.value.config == st.config) ==> r.1.connection == HttpClient.Connect(st.config)
    ensures Valid(st) ==> Valid(r.0)
    ensures !(st.cached.Some? && st.cached.value.config == st.config) ==>
              r.1.id == st.nextId && r.0.nextId == st.nextId + 1
    ensures st.cached.Some? && st.cached.value.config == st.config ==> r == (st, st.cached.value)
    ensures Valid(st) && st.cached.Some? && st.cached.value.config != st.config ==>
              r.1.id != st.cached.value.id
  {
    if st.cached.Some? && SameOptions(st.cached.value.config, Options(st.config)) then
      LemmaSameOptionsIffEqual(st.cached.value.config, st.config);
      (st, st.cached.value)
    else
      assert st.cached.Some? ==> st.cached.value.config != st.config;
      HttpClient.LemmaNewClientFromModuleOptions(st.config);
      var settings := HttpClient.NewClientConfig(Options(st.config), st.config);
      var client := ClientObject(st.nextId, settings, HttpClient.Connect(settings));
      (st.(cached := Some(client), nextId := st.nextId + 1), client)
  }

  /** The first call builds a client with the module's settings and the first identity. */
  lemma LemmaFirstCallBuilds(st: State)
    requires st.cached.None?
    ensures ClientCall(st).1 == ClientObject(st.nextId, st.config, HttpClient.Connect(st.config))
    ensures ClientCall(st).0 == st.(cached := Some(ClientCall(st).1), nextId := st.nextId + 1)
  {
    var r := ClientCall(st);
    assert r.1 == ClientObject(r.1.id, r.1.config, r.1.connection);
    assert r.0 == State(r.0.config, r.0.cached, r.0.nextId);
  }

  /** Two calls with no configuration change in between hand out the same client and leave the state alone. */
  lemma LemmaConsecutiveCallsReuse(st: State)
    ensures ClientCall(ClientCall(st).0) == ClientCall(st)
  {
  }

  /** The cached client is reused exactly when its settings equal the module's. */
  lemma LemmaReuseIffSameOptions(st: State)
    requires st.cached.Some?
    ensures ClientCall(st).1 == st.cached.value <==> st.cached.value.config == st.config
  {
  }

  /**
    Changing any setting to a different value after a call makes the next
    call build a new client object, which replaces the cache and carries
    the new settings; from a valid state its identity is new.
  */
  lemma LemmaChangedSettingRebuilds(st: State, s: Setting, v: Value)
    requires v != Get(st.config, s)
    ensures ClientCall(SetOption(ClientCall(st).0, s, v)).1 != ClientCall(st).1
    ensures Valid(st) ==> ClientCall(SetOption(ClientCall(st).0, s, v)).1.id != ClientCall(st).1.id
    ensures ClientCall(SetOption(ClientCall(st).0, s, v)).1.id == ClientCall(st).0.nextId
    ensures Get(ClientCall(SetOption(ClientCall(st).0, s, v)).1.config, s) == v
  {
    var first := ClientCall(st);
    var changed := SetOption(first.0, s, v);
    assert changed.cached == Some(first.1);
    assert Get(first.1.config, s) != v;
    assert first.1.config != changed.config;
    var second := ClientCall(changed);
    assert second.1.id == changed.nextId;
  }

  /**
    Writing a setting of the cached client to a value other than the
    module's does not stick: the next `Kvell.client` sees that the
    settings differ and builds a new client, with the module's value and
    a connection built from the module's settings.
  */
  lemma LemmaClientWriteDiscarded(st: State, s: Setting, v: Value)
    requires v != Get(st.config, s)
    ensures ClientCall(WriteClient(ClientCall(st).0, s, v)).1.id == ClientCall(st).0.nextId
    ensures Get(ClientCall(WriteClient(ClientCall(st).0, s, v)).1.config, s) == Get(st.config, s)
    ensures ClientCall(WriteClient(ClientCall(st).0, s, v)).1.connection == HttpClient.Connect(st.config)
  {
    var first := ClientCall(st);
    var written := WriteClient(first.0, s, v);
    assert Get(written.cached.value.config, s) != Get(written.config, s);
  }

  /**
    After a write to a built client, its requests still go to the base URL
    and use the timeouts it was built with, while the `X-Api-Key` header
    carries the API key as it is now.
  */
  lemma LemmaClientWriteKeepsConnection(st: State, s: Setting, v: Value)
    ensures var c := WriteClient(ClientCall(st).0, s, v).cached.value;
            var r := HttpClient.FetchBanksRequest(c.connection, c.config);
            r.baseUrl == ClientCall(st).1.connection.url
            && r.openTimeout == ClientCall(st).1.connection.openTimeout
            && r.timeout == ClientCall(st).1.connection.timeout
            && Hashes.Get(r.headers, "X-Api-Key") == Some(if s == ApiKey then v else st.config.apiKey)
  {
  }

  /** The module starts in a valid state. */
  lemma LemmaInitialValid()
    ensures Valid(Initial)
    ensures Initial.cached.None? && Initial.config == Unset
  {
  }

  /** What can happen to the module between two observations. */
  datatype Event =
    | SetEvent(setting: Setting, value: Value)
    | ConfigureEvent(writes: seq<Assignment>, loggerId: nat)
    | ClientEvent
    | ClientWriteEvent(setting: Setting, value: Value)
    | ClientConfigureEvent(writes: seq<Assignment>, loggerId: nat)

  /** Runs the events in order; returns the final state and every client handed out. */
  function Run(st: State, events: seq<Event>): (State, seq<ClientObject>)
    decreases |events|
  {
    if |events| == 0 then (st, [])
    else
      var (next, handed) := match events[0]
        case SetEvent(s, v) => (SetOption(st, s, v), [])
        case ConfigureEvent(writes, loggerId) => (ConfigureModule(st, writes, loggerId), [])
        case ClientEvent => var (n, c) := ClientCall(st); (n, [c])
        case ClientWriteEvent(s, v) => (WriteClient(st, s, v), [])
        case ClientConfigureEvent(writes, loggerId) => (ConfigureClient(st, writes, loggerId), []);
      var (last, rest) := Run(next, events[1..]);
      (last, handed + rest)
  }

  /**
    From a valid state, any run keeps the state valid, hands out only
    identities below the final counter, and leaves the cached client (if
    the last event was a client call) with the module's settings.
  */
  lemma {:induction false} LemmaRunKeepsValid(st: State, events: seq<Event>)
    requires Valid(st)
    ensures Valid(Run(st, events).0)
    ensures forall c :: c in Run(st, events).1 ==> c.id < Run(st, events).0.nextId
    ensures st.nextId <= Run(st, events).0.nextId
    ensures |events| > 0 && events[|events| - 1] == ClientEvent ==>
              Run(st, events).0.cached.Some? && Run(st, events).0.cached.value.config == Run(st, events).0.config
    decreases |events|
  {
    if |events| > 0 {
      var (next, handed) := match events[0]
        case SetEvent(s, v) => (SetOption(st, s, v), [])
        case ConfigureEvent(writes, loggerId) => (ConfigureModule(st, writes, loggerId), [])
        case ClientEvent => var (n, c) := ClientCall(st); (n, [c])
        case ClientWriteEvent(s, v) => (WriteClient(st, s, v), [])
        case ClientConfigureEvent(writes, loggerId) => (ConfigureClient(st, writes, loggerId), []);
      LemmaRunKeepsValid(next, events[1..]);
      if |events| == 1 {
        assert events[1..] == [];
      } else {
        assert events[1..][|events[1..]| - 1] == events[|events| - 1];
      }
    }
  }

  /** Every run from the module's initial state stays valid, and every identity it hands out is below the final counter. */
  lemma LemmaRunFromInitial(events: seq<Event>)
    ensures Valid(Run(Initial, events).0)
    ensures forall c :: c in Run(Initial, events).1 ==> c.id < Run(Initial, events).0.nextId
  {
    LemmaInitialValid();
    LemmaRunKeepsValid(Initial, events);
  }
}

=== FILE: log_filter.dfy ===
/**
  The filter the client installs on Faraday's logger: every match of
  `/(X-Api-Key: )([^&]+)/` is replaced by `\1[FILTERED]`, scanning left to
  right as `gsub` does. `[^&]+` is greedy and also matches newlines, so a
  key value runs to the next `&` or to the end of the logged text.
*/
module LogFilter {

  const KeyPrefix: string := "X-Api-Key: "
  const Marker: string := "[FILTERED]"

  /** The pattern matches at position `i` of `s`: the prefix, then at least one character other than `&`. */
  predicate MatchAt(s: string, i: nat) {
    i + |KeyPrefix| < |s| && s[i..i + |KeyPrefix|] == KeyPrefix && s[i + |KeyPrefix|] != '&'
  }

  /** Length of the longest prefix of `s` without `&`: what the greedy `[^&]+` consumes. */
  function RunLength(s: string): (n: nat)
    ensures n <= |s|
    ensures forall i :: 0 <= i < n ==> s[i] != '&'
    ensures n < |s| ==> s[n] == '&'
  {
    if |s| == 0 || s[0] == '&' then 0 else 1 + RunLength(s[1..])
  }

  /** `gsub(/(X-Api-Key: )([^&]+)/, '\1[FILTERED]')`. */
  function Redact(s: string): string
    decreases |s|
  {
    if |s| == 0 then ""
    else if MatchAt(s, 0) then
      var n := RunLength(s[|KeyPrefix|..]);
      KeyPrefix + Marker + Redact(s[|KeyPrefix| + n..])
    else [s[0]] + Redact(s[1..])
  }

  /**
    A key header whose value `v` is non-empty and holds no `&` becomes
    `X-Api-Key: [FILTERED]`; the prefix is kept and the filter carries on
    from the `&` (or end of text) that ended the value.
  */
  lemma LemmaRedactKeyValue(v: string, rest: string)
    requires |v| > 0 && forall i :: 0 <= i < |v| ==> v[i] != '&'
    requires |rest| == 0 || rest[0] == '&'
    ensures Redact(KeyPrefix + v + rest) == KeyPrefix + Marker + Redact(rest)
  {
    var s := KeyPrefix + v + rest;
    assert s[..|KeyPrefix|] == KeyPrefix;
    assert s[|KeyPrefix|] == v[0];
    assert MatchAt(s, 0);
    var t := s[|KeyPrefix|..];
    assert t == v + rest;
    LemmaRunLengthOf(v, rest);
    assert s[|KeyPrefix| + |v|..] == rest;
  }

  lemma {:induction false} LemmaRunLengthOf(v: string, rest: string)
    requires forall i :: 0 <= i < |v| ==> v[i] != '&'
    requires |rest| == 0 || rest[0] == '&'
    ensures RunLength(v + rest) == |v|
    decreases |v|
  {
    if |v| != 0 {
      assert (v + rest)[1..] == v[1..] + rest;
      LemmaRunLengthOf(v[1..], rest);
    } else {
      assert v + rest == rest;
    }
  }

  /** The pattern matches somewhere in `s`. */
  predicate HasMatch(s: string) {
    exists i: nat :: i < |s| && MatchAt(s, i)
  }

  /** Text in which the pattern matches nowhere passes through the filter unchanged. */
  lemma {:induction false} LemmaRedactNoMatchUnchanged(s: string)
    requires !HasMatch(s)
    ensures Redact(s) == s
    decreases |s|
  {
    if |s| != 0 {
      assert !MatchAt(s, 0);
      forall i: nat | i < |s[1..]| ensures !MatchAt(s[1..], i) {
        LemmaMatchShift(s, 1, i);
      }
      LemmaRedactNoMatchUnchanged(s[1..]);
    }
  }

  /** A match inside a suffix of `s` is a match of `s` at the shifted position. */
  lemma LemmaMatchShift(s: string, k: nat, i: nat)
    requires k <= |s|
    ensures MatchAt(s[k..], i) <==> MatchAt(s, k + i)
  {
    if i + |KeyPrefix| < |s[k..]| {
      assert s[k..][i..i + |KeyPrefix|] == s[k + i..k + i + |KeyPrefix|];
    }
  }

  /**
    If the filtered text starts with `w` (a string without `X`) and then a
    character other than `&`, so did the original text: the filter only
    writes `X-Api-Key: [FILTERED]`, which begins with `X`.
  */
  lemma {:induction false} LemmaPrefixWithoutX(s: string, w: string)
    requires 'X' !in w
    requires |Redact(s)| > |w| && Redact(s)[..|w|] == w && Redact(s)[|w|] != '&'
    ensures |s| > |w| && s[..|w|] == w && s[|w|] != '&'
    decreases |w|
  {
    if MatchAt(s, 0) {
      assert Redact(s)[0] == 'X';
      if |w| > 0 {
        assert false;
      }
    } else if |w| == 0 {
    } else {
      assert Redact(s) == [s[0]] + Redact(s[1..]);
      assert Redact(s)[1..][..|w| - 1] == w[1..];
      assert 'X' !in w[1..] by {
        forall i | 0 <= i < |w[1..]| ensures w[1..][i] != 'X' {
          assert w[1..][i] == w[i + 1];
        }
      }
      LemmaPrefixWithoutX(s[1..], w[1..]);
    }
  }

  /**
    Where the filter passes a character through, the filtered text starts a
    match only if the original text did.
  */
  lemma LemmaPassThroughMatch(s: string)
    requires |s| > 0
    ensures MatchAt([s[0]] + Redact(s[1..]), 0) ==> MatchAt(s, 0)
  {
    var r := [s[0]] + Redact(s[1..]);
    if MatchAt(r, 0) {
      var w := KeyPrefix[1..];
      assert r[..|KeyPrefix|] == KeyPrefix;
      assert Redact(s[1..])[..|w|] == w;
      assert Redact(s[1..])[|w|] == r[|KeyPrefix|];
      LemmaPrefixWithoutX(s[1..], w);
      assert s[..|KeyPrefix|] == [s[0]] + s[1..][..|w|];
    }
  }

  /** The filter's output never starts with `&` unless its input did. */
  lemma LemmaRedactFirst(t: string)
    requires |t| > 0 && t[0] == '&'
    ensures |Redact(t)| > 0 && Redact(t)[0] == '&'
  {
    assert !MatchAt(t, 0);
  }

  /** Filtering already-filtered text changes nothing. */
  lemma {:induction false} LemmaRedactIdempotent(s: string)
    ensures Redact(Redact(s)) == Redact(s)
    decreases |s|
  {
    if |s| == 0 {
    } else if MatchAt(s, 0) {
      var n := RunLength(s[|KeyPrefix|..]);
      var t := s[|KeyPrefix| + n..];
      var rt := Redact(t);
      assert |t| == 0 || t[0] == '&' by {
        if |t| > 0 {
          assert t[0] == s[|KeyPrefix|..][n];
        }
      }
      if |t| > 0 {
        LemmaRedactFirst(t);
      }
      assert forall i :: 0 <= i < |Marker| ==> Marker[i] != '&';
      LemmaRedactKeyValue(Marker, rt);
      LemmaRedactIdempotent(t);
    } else {
      LemmaRedactIdempotent(s[1..]);
      var r := [s[0]] + Redact(s[1..]);
      LemmaPassThroughMatch(s);
      assert r[1..] == Redact(s[1..]);
    }
  }

  /** At position `i` the text shows a key header whose whole value is the marker. */
  predicate MaskedAt(r: string, i: nat) {
    var v := i + |KeyPrefix|;
    v + |Marker| <= |r| && r[v..v + |Marker|] == Marker && (v + |Marker| == |r| || r[v + |Marker|] == '&')
  }

  lemma LemmaMaskedShift(r: string, k: nat, i: nat)
    requires k <= |r|
    ensures MaskedAt(r[k..], i) <==> MaskedAt(r, k + i)
  {
    var v := i + |KeyPrefix|;
    if v + |Marker| <= |r[k..]| {
      assert r[k..][v..v + |Marker|] == r[k + v..k + v + |Marker|];
    }
  }

  lemma LemmaMatchStartsWithX(r: string, i: nat)
    ensures MatchAt(r, i) ==> r[i] == 'X'
  {
    if MatchAt(r, i) {
      assert r[i..i + |KeyPrefix|][0] == r[i];
    }
  }

  /** The only `X` in `X-Api-Key: [FILTERED]` is its first character. */
  lemma LemmaReplacementHasOneX()
    ensures forall i :: 0 < i < |KeyPrefix + Marker| ==> (KeyPrefix + Marker)[i] != 'X'
  {
  }

  /** Wherever the pattern matches in `r`, the header's whole value is the marker. */
  predicate AllMasked(r: string) {
    forall i: nat :: i < |r| && MatchAt(r, i) ==> MaskedAt(r, i)
  }

  /** A replacement followed by masked text that starts at an `&` (or is empty) is masked. */
  lemma LemmaMaskedAfterReplacement(rt: string)
    requires AllMasked(rt)
    requires |rt| == 0 || rt[0] == '&'
    ensures AllMasked(KeyPrefix + Marker + rt)
  {
    var head := KeyPrefix + Marker;
    var r := head + rt;
    LemmaReplacementHasOneX();
    forall i: nat | i < |r| ensures MatchAt(r, i) ==> MaskedAt(r, i) {
      if i == 0 {
        assert r[|KeyPrefix|..|KeyPrefix| + |Marker|] == Marker;
      } else if i < |head| {
        assert r[i] == head[i];
        LemmaMatchStartsWithX(r, i);
      } else {
        assert r[|head|..] == rt;
        LemmaMatchShift(r, |head|, i - |head|);
        LemmaMaskedShift(r, |head|, i - |head|);
      }
    }
  }

  /** A character that starts no match, followed by masked text, is masked. */
  lemma LemmaMaskedAfterChar(c: char, rt: string)
    requires AllMasked(rt)
    requires !MatchAt([c] + rt, 0)
    ensures AllMasked([c] + rt)
  {
    var r := [c] + rt;
    forall i: nat | 0 < i < |r| ensures MatchAt(r, i) ==> MaskedAt(r, i) {
      assert r[1..] == rt;
      LemmaMatchShift(r, 1, i - 1);
      LemmaMaskedShift(r, 1, i - 1);
    }
  }

  /**
    The filter leaves no key value behind: wherever the pattern still
    matches in the filtered text, the header's value is exactly
    `[FILTERED]`, ended by `&` or by the end of the text.
  */
  lemma {:induction false} LemmaRedactMasksEveryKey(s: string)
    ensures forall i: nat :: i < |Redact(s)| && MatchAt(Redact(s), i) ==> MaskedAt(Redact(s), i)
    decreases |s|
  {
    if |s| == 0 {
    } else if MatchAt(s, 0) {
      var n := RunLength(s[|KeyPrefix|..]);
      var t := s[|KeyPrefix| + n..];
      LemmaRedactMasksEveryKey(t);
      assert |t| == 0 || t[0] == '&' by {
        if |t| > 0 {
          assert t[0] == s[|KeyPrefix|..][n];
        }
      }
      if |t| > 0 {
        LemmaRedactFirst(t);
      }
      LemmaMaskedAfterReplacement(Redact(t));
    } else {
      LemmaRedactMasksEveryKey(s[1..]);
      LemmaPassThroughMatch(s);
      LemmaMaskedAfterChar(s[0], Redact(s[1..]));
    }
  }

  /**
    A key value without `&` is masked up to the end of the text: `[^&]`
    also matches newlines, so header lines logged after the key are
    masked with it.
  */
  lemma LemmaRedactToEnd(v: string)
    requires |v| > 0 && '&' !in v
    ensures Redact(KeyPrefix + v) == KeyPrefix + Marker
  {
    LemmaRedactKeyValue(v, "");
    assert KeyPrefix + v + "" == KeyPrefix + v;
  }
}

=== FILE: requests.dfy ===
/**
  Outbound request models. Each model declares its properties, some of
  them required; construction fails on the first required property (in
  declaration order) whose value is `nil`. `false`, `0` and `""` count as
  present: only `nil` is missing.
*/
module Requests {
  import opened Wrappers
  import opened RubyValues

  datatype Property = Property(name: string, required: bool)

  /** The error construction raises, naming the missing property. */
  datatype ValidationError = PropertyRequired(property: string)

  /** A value per declared property, in declaration order; an unassigned property holds `nil`. */
  type Attributes = seq<Value>

  /** Every required property has a non-nil value. */
  predicate RequiredSet(props: seq<Property>, values: Attributes)
    requires |values| == |props|
  {
    forall i :: 0 <= i < |props| && props[i].required ==> values[i] != Nil
  }

  /** The first required property, in declaration order, whose value is `nil`. */
  function FirstMissing(props: seq<Property>, values: Attributes): (r: Option<string>)
    requires |values| == |props|
    ensures r.None? <==> RequiredSet(props, values)
    ensures r.Some? ==> exists i :: 0 <= i < |props| && props[i].required && props[i].name == r.value
                                    && values[i] == Nil
                                    && forall j :: 0 <= j < i && props[j].required ==> values[j] != Nil
    decreases |props|
  {
    if |props| == 0 then None
    else if props[0].required && values[0] == Nil then Some(props[0].name)
    else
      var r := FirstMissing(props[1..], values[1..]);
      assert forall i :: 1 <= i < |props| ==> props[i] == props[1..][i - 1] && values[i] == values[1..][i - 1];
      r
  }

  /** Construction: the values, once every required property is set. */
  function Build(props: seq<Property>, values: Attributes): (r: Result<Attributes, ValidationError>)
    requires |values| == |props|
    ensures r.Success? <==> RequiredSet(props, values)
    ensures r.Success? ==> r.value == values
    ensures r.Failure? ==> exists i :: 0 <= i < |props| && props[i].required
                                       && r.error == PropertyRequired(props[i].name) && values[i] == Nil
                                       && forall j :: 0 <= j < i && props[j].required ==> values[j] != Nil
  {
    match FirstMissing(props, values)
    case Some(name) => Failure(PropertyRequired(name))
    case None => Success(values)
  }

  const PayProperties: seq<Property> := [
    Property("amount", true),
    Property("phone", true),
    Property("bank_id", true),
    Property("fio", true),
    Property("transaction", true),
    Property("description", true),
    Property("customer", false)
  ]

  /** A constructed `Pay` request. */
  datatype Pay = Pay(
    amount: Value,
    phone: Value,
    bankId: Value,
    fio: Value,
    transaction: Value,
    description: Value,
    customer: Value)

  function PayAttributes(p: Pay): (a: Attributes)
    ensures |a| == |PayProperties|
  {
    [p.amount, p.phone, p.bankId, p.fio, p.transaction, p.description, p.customer]
  }

  /**
    `Pay.new`: succeeds exactly when the six required properties are
    non-nil, whatever `customer` is, and then keeps the assigned values.
  */
  function NewPay(amount: Value, phone: Value, bankId: Value, fio: Value,
                  transaction: Value, description: Value, customer: Value): (r: Result<Pay, ValidationError>)
    ensures r.Success? <==>
              amount != Nil && phone != Nil && bankId != Nil && fio != Nil
              && transaction != Nil && description != Nil
    ensures r.Success? ==> r.value == Pay(amount, phone, bankId, fio, transaction, description, customer)
    ensures r.Failure? ==> r.error.property in {"amount", "phone", "bank_id", "fio", "transaction", "description"}
    ensures amount == Nil ==> r == Failure(PropertyRequired("amount"))
    ensures r.Failure? ==>
              r.error.property == (if amount == Nil then "amount" else if phone == Nil then "phone"
                                   else if bankId == Nil then "bank_id" else if fio == Nil then "fio"
                                   else if transaction == Nil then "transaction" else "description")
  {
    var p := Pay(amount, phone, bankId, fio, transaction, description, customer);
    match Build(PayProperties, PayAttributes(p))
    case Success(_) => Success(p)
    case Failure(e) => Failure(e)
  }

  const CheckPaymentPossibilityProperties: seq<Property> := [
    Property("amount", true),
    Property("phone", true),
    Property("bank_id", true),
    Property("fio", true),
    Property("fio_check", true)
  ]

  /** A constructed `CheckPaymentPossibility` request. */
  datatype CheckPaymentPossibility = CheckPaymentPossibility(
    amount: Value,
    phone: Value,
    bankId: Value,
    fio: Value,
    fioCheck: Value)

  function CheckPaymentPossibilityAttributes(c: CheckPaymentPossibility): (a: Attributes)
    ensures |a| == |CheckPaymentPossibilityProperties|
  {
    [c.amount, c.phone, c.bankId, c.fio, c.fioCheck]
  }

  /**
    `CheckPaymentPossibility.new`: all five properties are required; it
    succeeds exactly when none is nil and then keeps the assigned values.
  */
  function NewCheckPaymentPossibility(amount: Value, phone: Value, bankId: Value, fio: Value,
                                      fioCheck: Value): (r: Result<CheckPaymentPossibility, ValidationError>)
    ensures r.Success? <==> amount != Nil && phone != Nil && bankId != Nil && fio != Nil && fioCheck != Nil
    ensures r.Success? ==> r.value == CheckPaymentPossibility(amount, phone, bankId, fio, fioCheck)
    ensures r.Failure? ==> r.error.property in {"amount", "phone", "bank_id", "fio", "fio_check"}
    ensures amount == Nil ==> r == Failure(PropertyRequired("amount"))
    ensures r.Failure? ==>
              r.error.property == (if amount == Nil then "amount" else if phone == Nil then "phone"
                                   else if bankId == Nil then "bank_id" else if fio == Nil then "fio"
                                   else "fio_check")
  {
    var c := CheckPaymentPossibility(amount, phone, bankId, fio, fioCheck);
    match Build(CheckPaymentPossibilityProperties, CheckPaymentPossibilityAttributes(c))
    case Success(_) => Success(c)
    case Failure(e) => Failure(e)
  }

  /** `Pay` has exactly one optional property, `customer`; every other one is required. */
  lemma LemmaPayCustomerIsOptional(amount: Value, phone: Value, bankId: Value, fio: Value,
                              transaction: Value, description: Value)
    requires amount != Nil && phone != Nil && bankId != Nil && fio != Nil
    requires transaction != Nil && description != Nil
    ensures NewPay(amount, phone, bankId, fio, transaction, description, Nil)
              == Success(Pay(amount, phone, bankId, fio, transaction, description, Nil))
  {
  }

  /** `fio_check = false` is a present value: only `nil` makes a property missing. */
  lemma LemmaCheckPaymentPossibilityAcceptsFalse(amount: Value, phone: Value, bankId: Value, fio: Value)
    requires amount != Nil && phone != Nil && bankId != Nil && fio != Nil
    ensures NewCheckPaymentPossibility(amount, phone, bankId, fio, Bool(false)).Success?
  {
  }
}

=== FILE: responses.dfy ===
/**
  Inbound response models: plain records whose properties are read by
  name from a parsed JSON object. A property the object lacks reads as
  `null`; members the model does not declare are ignored. Only the bank
  record is built by any client operation.
*/
module Responses {
  import opened Wrappers
  import opened Json
  import Hashes

  /** `Responses::Bank` and `Responses::FetchBanks` declare the same three properties. */
  datatype Bank = Bank(bankId: JsonValue, bankBic: JsonValue, name: JsonValue)

  /** Reading the bank properties out of one parsed JSON object. */
  function DecodeBank(members: seq<(string, JsonValue)>): Bank {
    Bank(Member(members, "bank_id"), Member(members, "bank_bic"), Member(members, "name"))
  }

  /** The JSON object the gateway sends for a bank. */
  function BankJson(b: Bank): JsonValue {
    JObject([("bank_id", b.bankId), ("bank_bic", b.bankBic), ("name", b.name)])
  }

  /** Decoding the gateway's object for a bank gives back that bank. */
  lemma LemmaBankRoundTrip(b: Bank)
    ensures DecodeBank(BankJson(b).members) == b
  {
    var m := BankJson(b).members;
    assert "bank_id" != "bank_bic" by { assert |"bank_id"| != |"bank_bic"|; }
    assert "bank_id" != "name" by { assert |"bank_id"| != |"name"|; }
    assert "bank_bic" != "name" by { assert |"bank_bic"| != |"name"|; }
    assert Hashes.UniqueKeys(m);
    assert m[0].0 == "bank_id" && m[1].0 == "bank_bic" && m[2].0 == "name";
  }
}

=== FILE: ruby_values.dfy ===
/**
  The Ruby objects the client stores in its settings and request models:
  `nil`, booleans, integers, strings, and opaque objects (a `Logger`)
  that are only ever compared by identity.
*/
module RubyValues {

  datatype Value =
    | Nil
    | Bool(b: bool)
    | Int(i: int)
    | Str(s: string)
    | Object(id: nat)

  /** Ruby truthiness: only `nil` and `false` are falsy, so `0` and `""` are truthy. */
  predicate Truthy(v: Value) {
    !(v.Nil? || v == Bool(false))
  }

  /** Ruby's `a || b`: the left operand when it is truthy, the right one otherwise. */
  function Or(a: Value, b: Value): Value {
    if Truthy(a) then a else b
  }
}

=== FILE: wrappers.dfy ===
/** Optional values and the outcome of an operation that may raise. */
module Wrappers {

  /** A value that may be absent. */
  datatype Option<+T> = None | Some(value: T)

  /** Either a value or the error that a Ruby method would have raised instead. */
  datatype Result<+R, +E> = Success(value: R) | Failure(error: E)
}
